=== FILE: README.md ===
# bounded-integer in Dafny

A model of the core of the Rust crate `bounded-integer`, which generates integer types whose
legal values are a closed range such as `-3..=1`. Two parts of it are modelled.

1. **The declaration front end of the procedural macro** (`macro/src/lib.rs`). This covers:
   - the constant-expression evaluator `eval_expr`, over unbounded integers;
   - range normalisation and validation in `impl Parse for BoundedInteger`;
   - the checks on an explicit `#[repr(..)]`, and the parser for repr names;
   - the automatic choice of a primitive type (`Repr::smallest_repr`, `ReprSizeFixed::from_bits`).
2. **The runtime contract** `BoundedInteger` (`src/lib.rs`). This covers `from_repr`, `to_repr`,
   `min_value` and `max_value` as `bounded_integer_impl!` defines them, the default checked and
   saturating addition and subtraction, and the `partial_cmp` of
   `bounded_integer_partial_ord_impl!`.

Modules, one per component:

| file | module | models |
|---|---|---|
| `rust_core.dfy` | `RustCore` | `core::option::Option` (with `unwrap_or`) and `core::result::Result` |
| `bigint.dfy` | `BigInt` | the `num_bigint::BigInt` operators the evaluator uses: truncating `/` and `%`, two's-complement `!`, `&`, `|`, `^` at unbounded width, and `bits()` |
| `const_expr.dfy` | `ConstExpr` | the expression tree and `eval_expr` |
| `repr.dfy` | `Repr` | `ReprSizeFixed`, `ReprSize`, `Repr`, `from_bits`, `minimum`/`maximum`, `smallest_repr`, and parsing repr names |
| `declaration.dfy` | `Declaration` | `impl Parse for BoundedInteger` from the `repr` attribute onwards |
| `runtime.dfy` | `Runtime` | the `BoundedInteger` trait and the two `macro_rules!` bodies |

Some choices in the model:
- `BigInt` division and remainder truncate toward zero. The model defines `TruncDiv` and
  `TruncRem` itself; Dafny's Euclidean `/` and `%` appear only with positive divisors.
- A bitwise operator is defined by peeling off the low bit with floor halving. It is then
  characterised bit by bit against `BitAt`, which is bit `i` of the infinite two's-complement
  expansion.
- `eval_expr` does not guard `%` by zero, and `BigInt` panics on it. The model therefore makes it
  a precondition: `RemainderDefined` says that evaluation never reaches a remainder by zero. It
  follows the order of evaluation, so the right operand of a binary node only has to be defined
  when the left one evaluates (an error on the left returns before the right is evaluated), and
  a `%` node only when both operands evaluate.
- Errors are datatypes that name the check that failed and, for range errors, which bound it
  failed at. The message text and spans are not modelled.
- A runtime type is `Runtime.Bounds(min, max)` and an instance is `Runtime.Value(repr)`. The
  type invariant is `Runtime.Within`. Representation arithmetic is over unbounded `int`.

Behaviours of the code worth noting, each reproduced as written:
- **Single-value ranges are refused.** The start must be strictly below the inclusive end
  (`from >= to` is an error at macro/src/lib.rs:205), so `3..=3` and `3..4` are refused. See
  `Declaration.ExampleSingletonRefused`.
- **Remainder by zero panics.** Only `/` goes through `checked_div` and reports an error
  (macro/src/lib.rs:489-491); `%` (line 492) is `BigInt`'s own operator, which panics.
- **Automatic choice is not always the narrowest.** The crate's documentation promises the
  smallest repr (macro/src/lib.rs:51, 68), but `smallest_repr` adds a sign bit to the magnitude's
  bit length, so `-128..=0` gets `i16` although `i8` holds it. The model proves soundness. It also
  proves minimality except when the start is exactly a signed type's minimum
  (`Repr.SmallestReprNarrowest`), and shows the exception (`Repr.NegativePowerOfTwoWidens`).

## Model

| member | source | states |
|---|---|---|
| `BigInt.TruncDiv` | macro/src/lib.rs:489-491 | the quotient is zero iff the dividend is smaller than the divisor in magnitude, and otherwise negative iff the operands' signs differ (rounding toward zero); `TruncDivisionLaw` relates it to the remainder |
| `BigInt.TruncRem` | macro/src/lib.rs:492 | the remainder is smaller than the divisor in magnitude and is zero or has the dividend's sign; `TruncDivisionLaw` relates it to the quotient |
| `BigInt.TruncDivisionLaw` | macro/src/lib.rs:489-492 | `a == b * (a / b) + a % b`; the remainder is smaller than the divisor in magnitude and is zero or has the dividend's sign |
| `BigInt.TruncDivisionUnique` | macro/src/lib.rs:489-492 | any quotient/remainder pair with those three properties is the truncating one, so `TruncDiv`/`TruncRem` are the only operators meeting that law |
| `BigInt.Not` | macro/src/lib.rs:473 | `!` is its own inverse and flips the sign; `NotBits` shows it flips every bit |
| `BigInt.And` | macro/src/lib.rs:494 | `x & y` is negative iff both operands are, and lies in `[0, x]` for non-negative `x`; `AndBits` characterises it bit by bit |
| `BigInt.Or` | macro/src/lib.rs:495 | `x \| y` is negative iff either operand is, and is at least `x` when both are non-negative; `OrBits` characterises it bit by bit |
| `BigInt.Xor` | macro/src/lib.rs:493 | `x ^ y` is negative iff exactly one operand is; `XorBits` characterises it bit by bit |
| `BigInt.NotBits` | macro/src/lib.rs:473 | every bit of `!x` (defined as `-x - 1`) is the flipped bit of `x` |
| `BigInt.AndBits` | macro/src/lib.rs:494 | bit `i` of `x & y` is set iff bit `i` is set in both operands, for negative operands too |
| `BigInt.OrBits` | macro/src/lib.rs:495 | bit `i` of `x \| y` is set iff it is set in either operand |
| `BigInt.XorBits` | macro/src/lib.rs:493 | bit `i` of `x ^ y` is set iff it is set in exactly one operand |
| `BigInt.BitsDetermineValue` | macro/src/lib.rs:493-495 | two integers with the same infinite bit expansion are equal, so the three bitwise characterisations determine the operators |
| `BigInt.MagnitudeBits` | macro/src/lib.rs:296-306 | `bits()` is the least `k` with `\|x\| < 2^k`: `\|x\| < 2^k`, and `2^(k-1) <= \|x\|` when `k > 0` |
| `BigInt.BitLenBound` | macro/src/lib.rs:299-306 | the bit length `bits()` of `n` is at most `k` iff `n < 2^k` |
| `Repr.MaxFixed` | macro/src/lib.rs:298-301 | `cmp::max` of two widths is one of them and at least as wide as both |
| `Repr.FromBits` | macro/src/lib.rs:438-447 | defined iff `bits <= 128`; the result has at least `bits` bits and is the narrowest fixed width that does |
| `Repr.FromBitsBands` | macro/src/lib.rs:438-447 | 0..=8 maps to 8, 9..=16 to 16, 17..=32 to 32, 33..=64 to 64, 65..=128 to 128, and above 128 to none |
| `Repr.FromBitsMonotone` | macro/src/lib.rs:438-447 | asking for more bits never gives a narrower width, and never turns a failure into a success |
| `Repr.Minimum` | macro/src/lib.rs:311-325 | defined iff the width is fixed; then `0` unsigned and `-2^(n-1)` signed for width `n` (the `MIN` table equals the two's-complement bound) |
| `Repr.Maximum` | macro/src/lib.rs:326-340 | defined iff the width is fixed; then `2^n - 1` unsigned and `2^(n-1) - 1` signed for width `n` |
| `Repr.NativeRange` | macro/src/lib.rs:311-340 | the min/max table is `[0, 2^n - 1]` unsigned and `[-2^(n-1), 2^(n-1) - 1]` signed for each fixed width `n`; pointer-sized types have neither bound |
| `Repr.SmallestRepr` | macro/src/lib.rs:294-309 | the choice is signed iff `min < 0` and is never pointer-sized |
| `Repr.SmallestReprWidth` | macro/src/lib.rs:294-309 | the choice fails iff the needed bits (`max.bits()`, or `bits() + 1` of either bound when signed) exceed 128; otherwise its width is `from_bits` of those bits |
| `Repr.SmallestReprSound` | macro/src/lib.rs:294-340 | the chosen type's native minimum is at most `min` and its native maximum at least `max` |
| `Repr.SmallestReprNarrowest` | macro/src/lib.rs:294-309 | for `min <= max`, every fixed-width type holding the range is at least as wide as the choice, unless `min` equals that type's negative minimum |
| `Repr.NegativePowerOfTwoWidens` | macro/src/lib.rs:294-309 | `-128..=0` fits `i8`, yet the choice is `i16` |
| `Repr.ParseRepr` | macro/src/lib.rs:370-403 | an accepted identifier is exactly the name of the type returned; `NotIntegerType` iff there is no `i`/`u` prefix; an unknown size reports the text after the prefix |
| `Repr.NameParseRoundTrip` | macro/src/lib.rs:370-403 | each of the twelve primitive names (`i`/`u` then `8`..`128` or `size`) parses back to its type |
| `Repr.ParseNameRoundTrip` | macro/src/lib.rs:370-403 | a name that parses is exactly the name of the type it yields, so no other identifier is accepted |
| `ConstExpr.ApplyBinary` | macro/src/lib.rs:485-501 | an operator on evaluated operands fails iff it is unsupported (`UnsupportedBinary`) or is `/` by zero (`DivisionByZero`); `/` and `%` are the quotient and remainder of one truncating division |
| `ConstExpr.Eval` | macro/src/lib.rs:462-509 | an integer literal evaluates to its value, and evaluation succeeds only on expressions built entirely from integer literals, `!`, `-`, the eight supported binary operators, groups and parentheses |
| `ConstExpr.ErrorExplained` | macro/src/lib.rs:462-509 | every error has a cause node inside the expression: a non-integer literal, a `*x`, an unsupported binary operator, another expression shape, or a division whose divisor evaluates to zero |
| `ConstExpr.SupportedEvaluates` | macro/src/lib.rs:462-509 | on a supported expression the only possible error is `DivisionByZero` |
| `ConstExpr.DivisionByZeroDetected` | macro/src/lib.rs:480-491 | a division by zero at any depth of a supported expression makes the whole evaluation fail with `DivisionByZero` |
| `ConstExpr.EvalSucceedsIff` | macro/src/lib.rs:462-509 | evaluation succeeds iff the expression is supported and none of its divisions has a zero divisor |
| `ConstExpr.EvalExact` | macro/src/lib.rs:480-495 | on evaluated operands, `+ - *` are exact; `/` by zero fails; `/` and `%` satisfy the truncating division law, with the remainder smaller than the divisor and of the dividend's sign; `&`, `\|`, `^` act bit by bit on two's-complement bits; other operators are refused |
| `ConstExpr.EvalUnaryExact` | macro/src/lib.rs:470-479 | `-x` is exact negation, `!x` is `-x - 1` and flips every bit, and `*x` is refused |
| `ConstExpr.LeftErrorShortCircuits` | macro/src/lib.rs:483-484 | an error in the left operand is the node's result for any operator and any right operand, which is never evaluated and so need not be defined |
| `ConstExpr.ShortCircuitExamples` | macro/src/lib.rs:462-492 | `1.0 + 1 % 0` gives the literal error and `1 / 0 + 1 % 0` the division error, although `1 % 0` alone would panic |
| `ConstExpr.GroupsTransparent` | macro/src/lib.rs:504-506 | removing every group and parenthesis node changes neither definedness nor the result |
| `Declaration.ExplicitRepr` | macro/src/lib.rs:157-160 | no attribute gives no explicit repr; otherwise it fails iff the identifier does not parse, and an accepted repr carries the identifier as its name |
| `Declaration.ResolveRange` | macro/src/lib.rs:194-210 | an accepted range has its start strictly before its inclusive end |
| `Declaration.ResolveRangeExact` | macro/src/lib.rs:198-210 | with ends evaluating to `a` and `b`, `a..=b` resolves to `(a, b)` and `a..b` to `(a, b - 1)`, and either only if the start is strictly before the resolved end |
| `Declaration.BoundErrorsReported` | macro/src/lib.rs:198-199 | an evaluation error is reported against its bound, and the start's error takes precedence |
| `Declaration.OpenRangeRefused` | macro/src/lib.rs:194-197 | a range missing either end is refused |
| `Declaration.CheckExplicit` | macro/src/lib.rs:212-240 | an explicit repr is accepted iff it is signed or the start is non-negative, and the range lies within its known native bounds |
| `Declaration.ExplicitReprErrors` | macro/src/lib.rs:212-240 | which error a refused explicit repr gets: an unsigned type with a negative start, then a start below the minimum, then an end above the maximum |
| `Declaration.PointerReprSignOnly` | macro/src/lib.rs:212-240 | `isize`/`usize` are checked for sign only, since they have no fixed minimum or maximum |
| `Declaration.ChooseRepr` | macro/src/lib.rs:212-245 | an explicit repr is accepted iff it is signed or the start is non-negative and the range lies within its known bounds, and is then returned unchanged; without one, the choice succeeds iff `smallest_repr` does and is that choice; a fixed-width result has `[from, to]` inside its native `MIN..=MAX`, and a pointer-sized one is only ever the explicit repr (checked for sign alone) |
| `Declaration.Parse` | macro/src/lib.rs:153-258 | an unparsable `repr` attribute gives `BadRepr` with its error, and then a range error is reported as `ResolveRange` gives it; an accepted declaration has a parsed `repr` attribute and `from..=to` is exactly the resolved range (the evaluated bounds, the half-open end less one, see `ResolveRangeExact`) with `from < to`; its repr is signed when `from < 0`, holds `from..=to` within its native range when fixed-width, and is `isize`/`usize` only when the attribute says so; kind and name are passed through |
| `Declaration.AutomaticReprChosen` | macro/src/lib.rs:242-244 | without an explicit repr the item uses exactly `smallest_repr`'s choice: fixed-width, signed iff the start is negative, and `TooWide` iff that choice fails |
| `Declaration.ExplicitReprAccepted` | macro/src/lib.rs:212-258 | a declaration whose explicit repr parses and passes the sign and bound checks on the resolved range is accepted as exactly that repr with that range |
| `Declaration.ParseErrors` | macro/src/lib.rs:157-244 | a refused declaration gets the first failing step's error: `BadRepr`, then the range's error (`RangeNotClosed`, `BadBound` at the failing bound, `StartNotBeforeEnd`), then the explicit repr's check error, or `TooWide` when the automatic choice fails |
| `Declaration.ExplicitReprKept` | macro/src/lib.rs:212-241 | an accepted explicit repr is kept, under the name it was written with |
| `Declaration.AcceptedTypeFitsRepr` | macro/src/lib.rs:205-245 | an accepted declaration gives a non-empty runtime type; with a fixed-width repr every legal instance lies in the repr's native `MIN..=MAX`; an `isize`/`usize` repr comes only from the attribute and bounds its instances by sign alone |
| `Declaration.ExampleSignedStruct` | macro/src/lib.rs:46-56 | `struct S { -3..2 }` resolves to `-3..=1` in `i8` |
| `Declaration.ExampleUnsignedEnum` | macro/src/lib.rs:63-75 | `enum S { 5..=7 }` resolves to `5..=7` in `u8` |
| `Declaration.ExampleExplicitRepr` | macro/src/lib.rs:87-97 | `#[repr(u16)] struct S { 2..5 }` keeps `u16` and resolves to `2..=4` |
| `Declaration.ExampleUnsignedNegative` | macro/src/lib.rs:214-219 | `#[repr(u8)]` with start `-1` is refused as an unsigned type holding a negative value |
| `Declaration.ExamplePointerReprUnbounded` | macro/src/lib.rs:212-240 | `#[repr(usize)]` with `0..=10^42` is accepted, since the pointer-sized types have no known bounds |
| `Declaration.ExampleSingletonRefused` | macro/src/lib.rs:205-210 | `3..=3` is refused: the start must be strictly before the end |
| `Runtime.FromRepr` | src/lib.rs:107-114 | `from_repr(r)` is `Some` iff `min <= r <= max`, and then holds `r` as a legal instance |
| `Runtime.ToRepr` | src/lib.rs:116 | the representation determines the instance; `ReprRoundTrip` makes it the inverse of `from_repr` |
| `Runtime.MinValue` | src/lib.rs:118 | `min_value()` is a legal instance iff the type is non-empty, and is at most every legal instance |
| `Runtime.MaxValue` | src/lib.rs:119 | `max_value()` is a legal instance iff the type is non-empty, and is at least every legal instance |
| `Runtime.ReprRoundTrip` | src/lib.rs:107-116 | `from_repr(x.to_repr()) == Some(x)` for every legal `x`, and `to_repr(from_repr(r).unwrap()) == r` |
| `Runtime.MinMaxBracket` | src/lib.rs:118-119 | `min_value()` and `max_value()` are legal instances, and every legal instance lies between them |
| `Runtime.CheckedAddRepr` | src/lib.rs:42-45 | `Some` iff `to_repr() + other` lies in `[min, max]`, and then it is that sum |
| `Runtime.CheckedAdd` | src/lib.rs:37-40 | `Some` iff the sum of the two representations lies in `[min, max]`, and then it is that sum |
| `Runtime.CheckedSubRepr` | src/lib.rs:52-55 | `Some` iff `to_repr() - other` lies in `[min, max]`, and then it is that difference |
| `Runtime.CheckedSub` | src/lib.rs:47-50 | `Some` iff the difference of the two representations lies in `[min, max]`, and then it is that difference |
| `Runtime.SaturatingAddRepr` | src/lib.rs:62-69 | the result is always a legal instance of a non-empty type, for any `self` and any `other` |
| `Runtime.SaturatingAdd` | src/lib.rs:57-60 | the result is always a legal instance of a non-empty type |
| `Runtime.SaturatingSubRepr` | src/lib.rs:76-83 | the result is always a legal instance of a non-empty type, for any `self` and any `other` |
| `Runtime.SaturatingSub` | src/lib.rs:71-74 | the result is always a legal instance of a non-empty type |
| `Runtime.SaturatingAddClamps` | src/lib.rs:62-69 | on a legal instance, the sign-directed rule amounts to clamping `self + other` to `[min, max]` |
| `Runtime.SaturatingSubClamps` | src/lib.rs:76-83 | on a legal instance, the sign-directed rule amounts to clamping `self - other` to `[min, max]` |
| `Runtime.SaturatingAgreesWithChecked` | src/lib.rs:57-83 | saturating equals checked when that succeeds; otherwise addition gives `min_value` for a negative other operand and `max_value` else, and subtraction the reverse |
| `Runtime.PartialCmp` | src/lib.rs:131-134 | `partial_cmp` is always `Some`, and is `Less`, `Equal` or `Greater` exactly as `to_repr()` of the first instance is below, equal to or above that of the second |
| `Runtime.PartialCmpTotalOrder` | src/lib.rs:131-134 | `partial_cmp` is `Equal` exactly on equal instances, swapping its arguments reverses it, and `Less` is transitive |
| `Runtime.PartialCmpFollowsVariantOrder` | src/lib.rs:124-134 | on legal instances, comparing representations is comparing variant positions `repr - min`, each of which lies in `[0, max - min]` |

## Left out

- The proc-macro entry point and token plumbing (macro/src/lib.rs:124-130) are not modelled. Nor is the parsing of visibility, `struct`/`enum`, the identifier, the braces or the range syntax. The model starts from a structured declaration.
- Attributes other than `repr` are not modelled: their passthrough, the `#[bounded_integer = path]` crate-location override and the serde path (macro/src/lib.rs:162-182). They forward syntax and have no behaviour. Only the first `repr` attribute is looked at, and the model takes its argument as the identifier's text.
- Integer literals are modelled by their value. `base10_parse` is not modelled, and neither are literal suffixes.
- Spans and error-message text are not modelled; errors are datatypes.
- The `generate` module is not part of this model. It emits the struct or enum and its trait impls. Nor are `ToTokens` and `Display` modelled; they only produce tokens and strings.
- `number_literal` (macro/src/lib.rs:342-367) is not modelled. It converts each bound to a suffixed literal with `try_into().unwrap()`, which panics when the bound does not fit the repr's type on the machine running the macro. For a fixed-width repr the checks already rule that out. For `isize`/`usize` that unwrap is the only limit on the range, and it uses the host's word size, not the target's.
- `BigInt::bits()` returns a `u64`, and `bits() + 1` is computed in `u64`. The model uses `nat`; an overflow would need a number with 2^64 bits.
- Native machine-width overflow of `to_repr() + other` and `to_repr() - other` is not modelled. Rust panics or wraps there, depending on the build. The model computes the sum over unbounded integers.
- The `unsafe transmute` in `from_repr` is modelled as building the value from its representation.
- The `repr`, `bit`, `trit` and `nibble` submodules of the runtime crate are not part of this model.
- `ConstExpr.Eval`: a remainder by zero that evaluation reaches panics in the source. It is modelled as the precondition `RemainderDefined`, not as an outcome; a remainder by zero that evaluation never reaches (see `ConstExpr.LeftErrorShortCircuits`) is allowed.
- `Repr.SmallestReprNarrowest`: stated only for a start strictly above a signed type's minimum, because `smallest_repr` is not minimal at that point (see `Repr.NegativePowerOfTwoWidens`).
- `Runtime.SaturatingAddClamps`, `Runtime.SaturatingSubClamps`: stated for legal instances only. With an out-of-range `self`, the sign-directed rule is not a clamp.
- `Declaration.ChooseRepr`, `Declaration.Parse`, `Declaration.AcceptedTypeFitsRepr`: "the repr holds the range" is promised for fixed-width reprs only. An explicit `isize`/`usize` accepts any range of the right sign (`Declaration.ExamplePointerReprUnbounded`), as macro/src/lib.rs:221 and 230 skip both bound checks for them; the only remaining guard is the unmodelled `number_literal` unwrap at macro/src/lib.rs:347.

=== FILE: bigint.dfy ===
/**
 The arbitrary-precision integer operations the macro borrows from `num_bigint::BigInt`:
 truncating division and remainder, two's-complement bitwise operators on integers of
 unbounded width, and the magnitude bit length `bits()`.

 Dafny's own `/` and `%` are Euclidean. They are used here only with a positive divisor
 (on magnitudes, or halving by 2, which is then floor division), never to stand for
 `BigInt`'s operators.
 */
module BigInt {

  function Abs(x: int): nat {
    if x < 0 then -x else x
  }

  // ---------------------------------------------------------------------------
  // Truncating division and remainder (`BigInt` `/`, `%`, `checked_div`)
  // ---------------------------------------------------------------------------

  /** Quotient rounded toward zero, as `BigInt` `/` computes it: zero exactly when the
      dividend is smaller than the divisor in magnitude, and otherwise negative exactly
      when the operands' signs differ. */
  function TruncDiv(a: int, b: int): (q: int)
    requires b != 0
    ensures q == 0 <==> Abs(a) < Abs(b)
    ensures q != 0 ==> (q < 0 <==> (a < 0) != (b < 0))
  {
    var q := Abs(a) / Abs(b);
    QuotientZero(Abs(a), Abs(b));
    if (a < 0) == (b < 0) then q else -q
  }

  /** A quotient of naturals is zero exactly when the dividend is below the divisor. */
  lemma QuotientZero(n: nat, d: nat)
    requires d > 0
    ensures n / d >= 0
    ensures n / d == 0 <==> n < d
  {
    var q, m := n / d, n % d;
    assert n == d * q + m && 0 <= m < d;
    if q > 0 {
      AtLeastOnce(d, q);
    }
  }

  /** Remainder whose sign follows the dividend, as `BigInt` `%` computes it: smaller
      than the divisor in magnitude, and zero or of the dividend's sign. */
  function TruncRem(a: int, b: int): (r: int)
    requires b != 0
    ensures Abs(r) < Abs(b)
    ensures r == 0 || (r < 0 <==> a < 0)
  {
    var m := Abs(a) % Abs(b);
    if a < 0 then -m else m
  }

  /** Negating one factor negates the product. */
  lemma NegateFactor(x: int, y: int)
    ensures (-x) * y == -(x * y) && x * (-y) == -(x * y)
  {
  }

  /** The division law tying the two together: `a == b * (a / b) + a % b`, with the
      remainder smaller than the divisor in magnitude and carrying the dividend's sign. */
  lemma TruncDivisionLaw(a: int, b: int)
    requires b != 0
    ensures a == b * TruncDiv(a, b) + TruncRem(a, b)
    ensures Abs(TruncRem(a, b)) < Abs(b)
    ensures TruncRem(a, b) == 0 || (TruncRem(a, b) < 0 <==> a < 0)
  {
    var A: int, B: int := Abs(a), Abs(b);
    var q, m := A / B, A % B;
    assert A == B * q + m && 0 <= m < B;
    if b < 0 {
      assert b == -B;
      NegateFactor(B, q);
      if a < 0 {
        assert b * TruncDiv(a, b) == b * q == -(B * q);
      } else {
        NegateFactor(b, q);
        assert b * TruncDiv(a, b) == b * -q == B * q;
      }
    } else {
      assert b == B;
      NegateFactor(B, q);
      if a < 0 {
        assert b * TruncDiv(a, b) == B * -q == -(B * q);
      } else {
        assert b * TruncDiv(a, b) == B * q;
      }
    }
  }

  /** |b * k| == |b| * |k|. */
  lemma AbsMul(b: int, k: int)
    ensures Abs(b * k) == Abs(b) * Abs(k)
  {
    if b < 0 {
      NegateFactor(-b, k);
      if k < 0 {
        NegateFactor(-b, -k);
      }
    } else if k < 0 {
      NegateFactor(b, -k);
    }
  }

  /** A positive multiple of `n` is at least `n`. */
  lemma AtLeastOnce(n: nat, k: nat)
    requires k >= 1
    ensures n * k >= n
  {
    assert n * k == n * (k - 1) + n;
  }

  /** A multiple of `b` smaller than `b` in magnitude is zero. */
  lemma SmallMultipleIsZero(b: int, k: int)
    requires b != 0
    requires Abs(b * k) < Abs(b)
    ensures k == 0
  {
    AbsMul(b, k);
    if k != 0 {
      AtLeastOnce(Abs(b), Abs(k));
    }
  }

  /** Truncating division is the ONLY quotient/remainder pair that satisfies the
      division law with a remainder that is smaller than the divisor and follows the
      sign of the dividend. */
  lemma TruncDivisionUnique(a: int, b: int, q: int, r: int)
    requires b != 0
    requires a == b * q + r
    requires Abs(r) < Abs(b)
    requires r == 0 || (r < 0 <==> a < 0)
    ensures q == TruncDiv(a, b) && r == TruncRem(a, b)
  {
    TruncDivisionLaw(a, b);
    var q0, r0 := TruncDiv(a, b), TruncRem(a, b);
    assert b * (q - q0) == r0 - r;
    // r and r0 are both zero or of the dividend's sign, so they differ by less than |b|
    assert Abs(r0 - r) < Abs(b);
    SmallMultipleIsZero(b, q - q0);
  }

  // ---------------------------------------------------------------------------
  // Two's-complement bitwise operators on unbounded integers
  // ---------------------------------------------------------------------------

  /** `!x` on a `BigInt`: the two's-complement complement, extended to unbounded width.
      It is its own inverse and flips the sign. */
  function Not(x: int): (r: int)
    ensures -r - 1 == x
    ensures r < 0 <==> x >= 0
  {
    -x - 1
  }

  /** Distance from the fixed points 0 and -1 of halving; it shrinks at every halving. */
  function Size(x: int): nat {
    if x >= 0 then x else -x - 1
  }

  /** The low bit of `x` (0 or 1) in two's complement. */
  function LowBit(x: int): int {
    x % 2
  }

  /** Arithmetic shift right by one: floor of `x / 2`. */
  function Half(x: int): int {
    x / 2
  }

  lemma HalfShrinks(x: int)
    ensures Size(Half(x)) <= Size(x)
    ensures x != 0 && x != -1 ==> Size(Half(x)) < Size(x)
  {
  }

  /** `x` is its half doubled plus its low bit, and halving keeps the sign. */
  lemma HalfSplits(x: int)
    ensures x == 2 * Half(x) + LowBit(x)
    ensures LowBit(x) == 0 || LowBit(x) == 1
    ensures Half(x) < 0 <==> x < 0
  {
  }

  /** `x & y` on `BigInt`s: negative exactly when both operands are, and between zero
      and `x` when `x` is non-negative. */
  function And(x: int, y: int): (r: int)
    ensures r < 0 <==> x < 0 && y < 0
    ensures x >= 0 ==> 0 <= r <= x
    decreases Size(x)
  {
    if x == 0 then 0
    else if x == -1 then y
    else
      HalfShrinks(x);
      HalfSplits(x);
      HalfSplits(y);
      var t := LowBit(x) * LowBit(y);
      assert 0 <= t <= LowBit(x);
      2 * And(Half(x), Half(y)) + t
  }

  /** `x | y` on `BigInt`s: negative exactly when either operand is, and at least `x`
      when both are non-negative. */
  function Or(x: int, y: int): (r: int)
    ensures r < 0 <==> x < 0 || y < 0
    ensures x >= 0 && y >= 0 ==> r >= x
    decreases Size(x)
  {
    if x == 0 then y
    else if x == -1 then -1
    else
      HalfShrinks(x);
      HalfSplits(x);
      HalfSplits(y);
      var t := LowBit(x) + LowBit(y) - LowBit(x) * LowBit(y);
      assert LowBit(x) <= t <= 1;
      2 * Or(Half(x), Half(y)) + t
  }

  /** `x ^ y` on `BigInt`s: negative exactly when the operands' signs differ. */
  function Xor(x: int, y: int): (r: int)
    ensures r < 0 <==> (x < 0) != (y < 0)
    decreases Size(x)
  {
    if x == 0 then y
    else if x == -1 then Not(y)
    else
      HalfShrinks(x);
      2 * Xor(Half(x), Half(y)) + (LowBit(x) + LowBit(y)) % 2
  }

  /** Bit `i` of `x` in its infinite two's-complement expansion. This is the
      reference against which the bitwise operators are characterised. */
  function BitAt(x: int, i: nat): int
    decreases i
  {
    if i == 0 then x % 2 else BitAt(x / 2, i - 1)
  }

  lemma {:induction false} BitAtIsBit(x: int, i: nat)
    ensures BitAt(x, i) == 0 || BitAt(x, i) == 1
    decreases i
  {
    if i > 0 {
      BitAtIsBit(x / 2, i - 1);
    }
  }

  /** 0 has no bit set and -1 has every bit set. */
  lemma {:induction false} BitsOfFixedPoints(i: nat)
    ensures BitAt(0, i) == 0 && BitAt(-1, i) == 1
    decreases i
  {
    if i > 0 {
      BitsOfFixedPoints(i - 1);
    }
  }

  /** Appending low bit `t` to `c` and then shifting it out again gives back `c` and `t`. */
  lemma Shift(c: int, t: int)
    requires t == 0 || t == 1
    ensures (2 * c + t) % 2 == t && (2 * c + t) / 2 == c
  {
  }

  /** Bits above 0 of `2 * c + t` are the bits of `c`, moved up by one. */
  lemma BitsOfShift(c: int, t: int, i: nat)
    requires t == 0 || t == 1
    ensures BitAt(2 * c + t, i) == if i == 0 then t else BitAt(c, i - 1)
  {
    Shift(c, t);
  }

  lemma {:induction false} NotBits(x: int, i: nat)
    ensures BitAt(Not(x), i) == 1 - BitAt(x, i)
    decreases i
  {
    // !x halves to !(x / 2) and flips the low bit
    assert Not(x) / 2 == Not(x / 2) && Not(x) % 2 == 1 - x % 2;
    if i > 0 {
      NotBits(x / 2, i - 1);
    }
  }

  /** Bit `i` of `x & y` is set exactly when bit `i` is set in both. */
  lemma {:induction false} AndBits(x: int, y: int, i: nat)
    ensures BitAt(And(x, y), i) == BitAt(x, i) * BitAt(y, i)
    decreases Size(x)
  {
    BitsOfFixedPoints(i);
    if x != 0 && x != -1 {
      HalfShrinks(x);
      var t := LowBit(x) * LowBit(y);
      assert t == 0 || t == 1;
      BitsOfShift(And(Half(x), Half(y)), t, i);
      if i > 0 {
        AndBits(Half(x), Half(y), i - 1);
      }
    }
  }

  /** Bit `i` of `x | y` is set exactly when bit `i` is set in either. */
  lemma {:induction false} OrBits(x: int, y: int, i: nat)
    ensures BitAt(Or(x, y), i) == BitAt(x, i) + BitAt(y, i) - BitAt(x, i) * BitAt(y, i)
    decreases Size(x)
  {
    BitsOfFixedPoints(i);
    if x != 0 && x != -1 {
      HalfShrinks(x);
      var t := LowBit(x) + LowBit(y) - LowBit(x) * LowBit(y);
      assert t == 0 || t == 1;
      BitsOfShift(Or(Half(x), Half(y)), t, i);
      if i > 0 {
        OrBits(Half(x), Half(y), i - 1);
      }
    }
  }

  /** Bit `i` of `x ^ y` is set exactly when bit `i` is set in one of them but not both. */
  lemma {:induction false} XorBits(x: int, y: int, i: nat)
    ensures BitAt(Xor(x, y), i) == (BitAt(x, i) + BitAt(y, i)) % 2
    decreases Size(x)
  {
    BitsOfFixedPoints(i);
    BitAtIsBit(y, i);
    if x == -1 {
      NotBits(y, i);
    } else if x != 0 {
      HalfShrinks(x);
      var t := (LowBit(x) + LowBit(y)) % 2;
      BitsOfShift(Xor(Half(x), Half(y)), t, i);
      if i > 0 {
        XorBits(Half(x), Half(y), i - 1);
      }
    }
  }

  /** An integer is determined by its bits, so the bit-wise characterisations above
      pin the operators down completely. */
  lemma {:induction false} BitsDetermineValue(x: int, y: int)
    requires forall i: nat :: BitAt(x, i) == BitAt(y, i)
    ensures x == y
    decreases Size(x) + Size(y)
  {
    assert BitAt(x, 0) == BitAt(y, 0);
    if (x == 0 || x == -1) && (y == 0 || y == -1) {
    } else {
      HalfShrinks(x);
      HalfShrinks(y);
      forall i: nat
        ensures BitAt(x / 2, i) == BitAt(y / 2, i)
      {
        assert BitAt(x, i + 1) == BitAt(y, i + 1);
      }
      BitsDetermineValue(x / 2, y / 2);
    }
  }

  // ---------------------------------------------------------------------------
  // Bit length (`BigInt::bits`)
  // ---------------------------------------------------------------------------

  function Pow2(k: nat): (r: nat)
    ensures r >= 1
  {
    if k == 0 then 1 else 2 * Pow2(k - 1)
  }

  /** Number of binary digits of `n`; zero has none. */
  function BitLen(n: nat): nat {
    if n == 0 then 0 else 1 + BitLen(n / 2)
  }

  /** `BigInt::bits`: the bit length of the magnitude, sign ignored, that is the least
      `k` with `|x| < 2^k`. */
  function MagnitudeBits(x: int): (k: nat)
    ensures Abs(x) < Pow2(k)
    ensures k > 0 ==> Pow2(k - 1) <= Abs(x)
  {
    var k := BitLen(Abs(x));
    BitLenBound(Abs(x), k);
    if k > 0 then
      BitLenBound(Abs(x), k - 1);
      k
    else k
  }

  /** `k` binary digits suffice for `n` exactly when `n` is below `2^k`. */
  lemma {:induction false} BitLenBound(n: nat, k: nat)
    ensures BitLen(n) <= k <==> n < Pow2(k)
    decreases k
  {
    if n != 0 && k > 0 {
      BitLenBound(n / 2, k - 1);
    }
  }
}

=== FILE: const_expr.dfy ===
/**
 The constant-expression evaluator `eval_expr` (macro/src/lib.rs) that computes the two
 bounds of a declared range over arbitrary-precision integers.
 */
module ConstExpr {
  import opened RustCore
  import BigInt

  /** A literal token: an integer literal carries its (non-negative) value; every other
      literal (string, byte, char, float, bool) is refused. */
  datatype Lit = IntLit(value: nat) | NonIntLit

  /** The unary operators of the Rust grammar: `!`, `-`, and the dereference `*`. */
  datatype UnOp = Not | Neg | Deref

  /** The binary operators the evaluator accepts, and all the others (`&&`, `||`,
      shifts, comparisons, compound assignments) as one. */
  datatype BinOp = Add | Sub | Mul | Div | Rem | BitXor | BitAnd | BitOr | OtherBinOp

  /** The expression shapes the evaluator distinguishes; `OtherExpr` is any other shape
      (path, call, field access, ...). `Group` is an invisible grouping the compiler
      inserts around macro-substituted fragments; `Paren` is written parentheses. */
  datatype Expr =
    | LitExpr(lit: Lit)
    | Unary(op: UnOp, operand: Expr)
    | Binary(left: Expr, bop: BinOp, right: Expr)
    | Group(inner: Expr)
    | Paren(inner: Expr)
    | OtherExpr

  /** Why evaluation failed; the source also attaches the span of the offending node. */
  datatype EvalError =
    | NonIntegerLiteral
    | UnsupportedUnary
    | UnsupportedBinary
    | UnsupportedExpression
    | DivisionByZero

  /** The shapes and operators the evaluator accepts, regardless of the values. */
  predicate Supported(e: Expr) {
    match e
    case LitExpr(l) => l.IntLit?
    case Unary(op, x) => op != Deref && Supported(x)
    case Binary(l, op, r) => op != OtherBinOp && Supported(l) && Supported(r)
    case Group(x) => Supported(x)
    case Paren(x) => Supported(x)
    case OtherExpr => false
  }

  /** `BigInt`'s `%` panics on a zero divisor, and `eval_expr` does not guard it. This
      predicate says evaluation never reaches such a remainder. It follows the order of
      evaluation: the right operand of a binary node is only looked at once the left one
      has evaluated, since an error on the left returns before the right is evaluated,
      and a `%` node is only reached once both operands have evaluated. */
  predicate RemainderDefined(e: Expr)
    decreases e, 0
  {
    match e
    case LitExpr(_) => true
    case Unary(_, x) => RemainderDefined(x)
    case Binary(l, op, r) =>
      && RemainderDefined(l)
      && (Eval(l).Ok? ==>
            && RemainderDefined(r)
            && (op == Rem && Eval(r).Ok? ==> Eval(r).value != 0))
    case Group(x) => RemainderDefined(x)
    case Paren(x) => RemainderDefined(x)
    case OtherExpr => true
  }

  /** One binary operator on two evaluated operands. It fails only on an unsupported
      operator or a division by zero; `/` and `%` are the two halves of the truncating
      division of `a` by `b`. */
  function ApplyBinary(op: BinOp, a: int, b: int): (r: Result<int, EvalError>)
    requires op == Rem ==> b != 0
    ensures r.Err? <==> op == OtherBinOp || (op == Div && b == 0)
    ensures r.Err? ==> r.error == if op == Div then DivisionByZero else UnsupportedBinary
    ensures op == Div && b != 0 ==> r.Ok? && a == b * r.value + BigInt.TruncRem(a, b)
    ensures op == Rem ==> r.Ok? && a == b * BigInt.TruncDiv(a, b) + r.value
  {
    match op
    case Add => Ok(a + b)
    case Sub => Ok(a - b)
    case Mul => Ok(a * b)
    case Div =>
      if b == 0 then Err(DivisionByZero)
      else
        BigInt.TruncDivisionLaw(a, b);
        Ok(BigInt.TruncDiv(a, b))
    case Rem =>
      BigInt.TruncDivisionLaw(a, b);
      Ok(BigInt.TruncRem(a, b))
    case BitXor => Ok(BigInt.Xor(a, b))
    case BitAnd => Ok(BigInt.And(a, b))
    case BitOr => Ok(BigInt.Or(a, b))
    case OtherBinOp => Err(UnsupportedBinary)
  }

  /** `eval_expr`. Operands are evaluated before the operator is examined, left before
      right, so an operand's error wins over the operator's. */
  function Eval(e: Expr): (r: Result<int, EvalError>)
    requires RemainderDefined(e)
    ensures r.Ok? ==> Supported(e)
    ensures e.LitExpr? && e.lit.IntLit? ==> r == Ok(e.lit.value)
    decreases e, 1
  {
    match e
    case LitExpr(IntLit(v)) => Ok(v)
    case LitExpr(NonIntLit) => Err(NonIntegerLiteral)
    case Unary(op, x) =>
      (match Eval(x)
       case Err(k) => Err(k)
       case Ok(v) =>
         match op
         case Not => Ok(BigInt.Not(v))
         case Neg => Ok(-v)
         case Deref => Err(UnsupportedUnary))
    case Binary(l, op, r) =>
      (match Eval(l)
       case Err(k) => Err(k)
       case Ok(a) =>
         match Eval(r)
         case Err(k) => Err(k)
         case Ok(b) => ApplyBinary(op, a, b))
    case Group(x) => Eval(x)
    case Paren(x) => Eval(x)
    case OtherExpr => Err(UnsupportedExpression)
  }

  /** All nodes of `e`, itself included. */
  function Subterms(e: Expr): (s: set<Expr>)
    ensures e in s
  {
    match e
    case LitExpr(_) => {e}
    case Unary(_, x) => {e} + Subterms(x)
    case Binary(l, _, r) => {e} + Subterms(l) + Subterms(r)
    case Group(x) => {e} + Subterms(x)
    case Paren(x) => {e} + Subterms(x)
    case OtherExpr => {e}
  }

  /** A division whose divisor evaluates to zero. */
  predicate DividesByZero(s: Expr) {
    s.Binary? && s.bop == Div && RemainderDefined(s.right) && Eval(s.right) == Ok(0)
  }

  /** The node that raises error `k` by itself (as opposed to passing on an operand's error). */
  predicate Raises(s: Expr, k: EvalError) {
    match k
    case NonIntegerLiteral => s == LitExpr(NonIntLit)
    case UnsupportedUnary => s.Unary? && s.op == Deref
    case UnsupportedBinary => s.Binary? && s.bop == OtherBinOp
    case UnsupportedExpression => s == OtherExpr
    case DivisionByZero => DividesByZero(s)
  }

  /** Every error has a cause inside the expression: a refused literal, operator or
      shape, or a division whose divisor is zero. */
  lemma {:induction false} ErrorExplained(e: Expr)
    requires RemainderDefined(e)
    requires Eval(e).Err?
    ensures exists s :: s in Subterms(e) && Raises(s, Eval(e).error)
  {
    var k := Eval(e).error;
    match e
    case LitExpr(_) =>
      assert Raises(e, k);
    case Unary(op, x) =>
      if Eval(x).Err? {
        ErrorExplained(x);
      } else {
        assert Raises(e, k);
      }
    case Binary(l, op, r) =>
      if Eval(l).Err? {
        ErrorExplained(l);
      } else if Eval(r).Err? {
        ErrorExplained(r);
      } else {
        assert Raises(e, k);
      }
    case Group(x) =>
      ErrorExplained(x);
    case Paren(x) =>
      ErrorExplained(x);
    case OtherExpr =>
      assert Raises(e, k);
  }

  /** On an expression of supported shape, division by zero is the only possible error. */
  lemma {:induction false} SupportedEvaluates(e: Expr)
    requires RemainderDefined(e)
    requires Supported(e)
    ensures Eval(e).Ok? || Eval(e) == Err(DivisionByZero)
  {
    match e
    case LitExpr(_) =>
    case Unary(_, x) =>
      SupportedEvaluates(x);
    case Binary(l, _, r) =>
      SupportedEvaluates(l);
      if Eval(l).Ok? {
        SupportedEvaluates(r);
      }
    case Group(x) =>
      SupportedEvaluates(x);
    case Paren(x) =>
      SupportedEvaluates(x);
  }

  /** A division by zero anywhere in a supported expression, at any depth, makes the
      whole evaluation fail with `DivisionByZero`. */
  lemma {:induction false} DivisionByZeroDetected(e: Expr, s: Expr)
    requires RemainderDefined(e)
    requires Supported(e)
    requires s in Subterms(e) && DividesByZero(s)
    ensures Eval(e) == Err(DivisionByZero)
  {
    SupportedEvaluates(e);
    match e
    case LitExpr(_) =>
    case Unary(_, x) =>
      DivisionByZeroDetected(x, s);
    case Binary(l, _, r) =>
      // an error on the left is already a division by zero, since `e` is supported
      SupportedEvaluates(l);
      if Eval(l).Ok? {
        SupportedEvaluates(r);
        if s in Subterms(l) {
          DivisionByZeroDetected(l, s);
        } else if s in Subterms(r) {
          DivisionByZeroDetected(r, s);
        } else {
          assert s == e;
        }
      }
    case Group(x) =>
      DivisionByZeroDetected(x, s);
    case Paren(x) =>
      DivisionByZeroDetected(x, s);
  }

  /** Evaluation succeeds exactly on supported expressions that never divide by zero. */
  lemma EvalSucceedsIff(e: Expr)
    requires RemainderDefined(e)
    ensures Eval(e).Ok? <==>
      Supported(e) && !exists s :: s in Subterms(e) && DividesByZero(s)
  {
    if Eval(e).Ok? {
      if s :| s in Subterms(e) && DividesByZero(s) {
        DivisionByZeroDetected(e, s);
      }
    } else if Supported(e) {
      SupportedEvaluates(e);
      ErrorExplained(e);
    }
  }

  /** The values evaluation computes, against the reference characterisations of the
      `BigInt` operators: exact `+`, `-`, `*` and negation; `/` and `%` satisfying the
      truncating division law; and `!`, `&`, `|`, `^` acting bit by bit. */
  lemma EvalExact(l: Expr, op: BinOp, r: Expr, a: int, b: int)
    requires RemainderDefined(Binary(l, op, r))
    requires Eval(l) == Ok(a) && Eval(r) == Ok(b)
    ensures op == Add ==> Eval(Binary(l, op, r)) == Ok(a + b)
    ensures op == Sub ==> Eval(Binary(l, op, r)) == Ok(a - b)
    ensures op == Mul ==> Eval(Binary(l, op, r)) == Ok(a * b)
    ensures op == Div && b == 0 ==> Eval(Binary(l, op, r)) == Err(DivisionByZero)
    ensures op == Div && b != 0 ==>
      && Eval(Binary(l, op, r)).Ok?
      && a == b * Eval(Binary(l, op, r)).value + Eval(Binary(l, Rem, r)).value
    ensures op == Rem ==>
      && Eval(Binary(l, op, r)).Ok?
      && BigInt.Abs(Eval(Binary(l, op, r)).value) < BigInt.Abs(b)
      && (Eval(Binary(l, op, r)).value == 0 || (Eval(Binary(l, op, r)).value < 0 <==> a < 0))
    ensures op == BitAnd ==> (Eval(Binary(l, op, r)).Ok? &&
      forall i: nat :: BigInt.BitAt(Eval(Binary(l, op, r)).value, i) == BigInt.BitAt(a, i) * BigInt.BitAt(b, i))
    ensures op == BitOr ==> (Eval(Binary(l, op, r)).Ok? &&
      forall i: nat :: BigInt.BitAt(Eval(Binary(l, op, r)).value, i) ==
        BigInt.BitAt(a, i) + BigInt.BitAt(b, i) - BigInt.BitAt(a, i) * BigInt.BitAt(b, i))
    ensures op == BitXor ==> (Eval(Binary(l, op, r)).Ok? &&
      forall i: nat :: BigInt.BitAt(Eval(Binary(l, op, r)).value, i) == (BigInt.BitAt(a, i) + BigInt.BitAt(b, i)) % 2)
    ensures op == OtherBinOp ==> Eval(Binary(l, op, r)) == Err(UnsupportedBinary)
  {
    match op
    case Div =>
      if b != 0 {
        BigInt.TruncDivisionLaw(a, b);
      }
    case Rem =>
      BigInt.TruncDivisionLaw(a, b);
    case BitAnd =>
      forall i: nat
        ensures BigInt.BitAt(BigInt.And(a, b), i) == BigInt.BitAt(a, i) * BigInt.BitAt(b, i)
      {
        BigInt.AndBits(a, b, i);
      }
    case BitOr =>
      forall i: nat
        ensures BigInt.BitAt(BigInt.Or(a, b), i) ==
          BigInt.BitAt(a, i) + BigInt.BitAt(b, i) - BigInt.BitAt(a, i) * BigInt.BitAt(b, i)
      {
        BigInt.OrBits(a, b, i);
      }
    case BitXor =>
      forall i: nat
        ensures BigInt.BitAt(BigInt.Xor(a, b), i) == (BigInt.BitAt(a, i) + BigInt.BitAt(b, i)) % 2
      {
        BigInt.XorBits(a, b, i);
      }
    case _ =>
  }

  /** Unary operators: `-x` is exact negation and `!x` is `-x - 1`, which flips every
      bit; `*x` is refused. */
  lemma EvalUnaryExact(op: UnOp, x: Expr, v: int)
    requires RemainderDefined(x)
    requires Eval(x) == Ok(v)
    ensures op == Neg ==> Eval(Unary(op, x)) == Ok(-v)
    ensures op == Not ==> (Eval(Unary(op, x)) == Ok(-v - 1) &&
      forall i: nat :: BigInt.BitAt(Eval(Unary(op, x)).value, i) == 1 - BigInt.BitAt(v, i))
    ensures op == Deref ==> Eval(Unary(op, x)) == Err(UnsupportedUnary)
  {
    forall i: nat
      ensures BigInt.BitAt(BigInt.Not(v), i) == 1 - BigInt.BitAt(v, i)
    {
      BigInt.NotBits(v, i);
    }
  }

  /** An error in the left operand is the result of the whole binary node, whatever the
      operator and whatever the right operand, which is then never evaluated: even a
      right operand holding a remainder by zero does not make the node undefined. */
  lemma LeftErrorShortCircuits(l: Expr, op: BinOp, r: Expr)
    requires RemainderDefined(l)
    requires Eval(l).Err?
    ensures RemainderDefined(Binary(l, op, r))
    ensures Eval(Binary(l, op, r)) == Eval(l)
  {
  }

  /** The two expressions that show it: `1.0 + 1 % 0` fails on its literal, and
      `1 / 0 + 1 % 0` on its division, before either remainder is reached. */
  lemma ShortCircuitExamples()
    ensures var remByZero := Binary(LitExpr(IntLit(1)), Rem, LitExpr(IntLit(0)));
      && !RemainderDefined(remByZero)
      && Eval(Binary(LitExpr(NonIntLit), Add, remByZero)) == Err(NonIntegerLiteral)
      && Eval(Binary(Binary(LitExpr(IntLit(1)), Div, LitExpr(IntLit(0))), Add, remByZero))
         == Err(DivisionByZero)
  {
  }

  /** `e` with every group and parenthesis node removed. */
  function StripGroups(e: Expr): Expr {
    match e
    case LitExpr(_) => e
    case Unary(op, x) => Unary(op, StripGroups(x))
    case Binary(l, op, r) => Binary(StripGroups(l), op, StripGroups(r))
    case Group(x) => StripGroups(x)
    case Paren(x) => StripGroups(x)
    case OtherExpr => e
  }

  /** Groups and parentheses are transparent: removing them changes neither whether the
      remainder is defined nor the outcome of evaluation. */
  lemma {:induction false} GroupsTransparent(e: Expr)
    ensures RemainderDefined(StripGroups(e)) <==> RemainderDefined(e)
    ensures RemainderDefined(e) ==> Eval(StripGroups(e)) == Eval(e)
  {
    match e
    case LitExpr(_) =>
    case Unary(_, x) =>
      GroupsTransparent(x);
    case Binary(l, _, r) =>
      GroupsTransparent(l);
      GroupsTransparent(r);
    case Group(x) =>
      GroupsTransparent(x);
    case Paren(x) =>
      GroupsTransparent(x);
    case OtherExpr =>
  }
}

=== FILE: declaration.dfy ===
/**
 `impl Parse for BoundedInteger` (macro/src/lib.rs): turning a declaration such as
 `#[repr(u16)] pub struct S { 2..5 }` into a resolved item, that is a representation and
 an inclusive range `from..=to`. The token-level parsing is replaced by a structured
 declaration; the decisions about the range and the representation are modelled.
 */
module Declaration {
  import opened RustCore
  import opened ConstExpr
  import opened Repr
  import Runtime
  import BigInt

  datatype Kind = Struct | Enum

  /** `..` (half-open) or `..=` (closed). */
  datatype RangeLimits = HalfOpen | Closed

  /** The body of the declaration: a range whose ends may be missing (`a..`, `..b`, `..`). */
  datatype RangeSyntax = RangeSyntax(from: Option<Expr>, limits: RangeLimits, to: Option<Expr>)

  /** A declaration: the text of its `repr` attribute if any, then kind, name and range. */
  datatype Declaration = Declaration(repr: Option<string>, kind: Kind, name: string, range: RangeSyntax)

  /** Which end of the range an error is reported at. */
  datatype Bound = Start | End

  /** Why a declaration was refused; each constructor stands for one of the source's
      error sites, and its doc says where the source points the diagnostic. */
  datatype DeclError =
    | BadRepr(reprError: ReprError)           // at the `repr` argument
    | RangeNotClosed                          // at the whole range
    | BadBound(bound: Bound, error: EvalError) // at the offending node of that bound
    | StartNotBeforeEnd                       // at the whole range
    | UnsignedNegative                        // at the start bound
    | BelowMinimum                            // at the start bound
    | AboveMaximum                            // at the end bound
    | TooWide                                 // at the whole range

  /** The resolved item handed to code generation: `range: from..=to`. */
  datatype Item = Item(repr: Repr, kind: Kind, name: string, from: int, to: int)

  /** The explicit representation, if the `repr` attribute names a valid one: absent
      without the attribute, and otherwise the type its identifier names, or that
      identifier's error. */
  function ExplicitRepr(d: Declaration): (res: Result<Option<Repr>, ReprError>)
    ensures d.repr.None? ==> res == Ok(None)
    ensures d.repr.Some? && res.Ok? ==> res.value.Some? && Name(res.value.value) == d.repr.value
    ensures d.repr.Some? ==> (res.Err? <==> ParseRepr(d.repr.value).Err?)
  {
    match d.repr
    case None => Ok(None)
    case Some(s) =>
      match ParseRepr(s)
      case Err(e) => Err(e)
      case Ok(r) => Ok(Some(r))
  }

  /** Parsing never panics: the start bound does not reach a remainder by zero, and if
      it evaluates, neither does the end bound. Evaluation is only reached once the
      `repr` attribute has parsed and the range is closed. */
  predicate EvaluationDefined(d: Declaration) {
    ExplicitRepr(d).Ok? && d.range.from.Some? && d.range.to.Some? ==>
      && RemainderDefined(d.range.from.value)
      && (Eval(d.range.from.value).Ok? ==> RemainderDefined(d.range.to.value))
  }

  /** The range check: both ends present and evaluated, a half-open end made inclusive
      by subtracting one, and the start strictly before the end. */
  function ResolveRange(range: RangeSyntax): (r: Result<(int, int), DeclError>)
    requires range.from.Some? && range.to.Some? ==>
      && RemainderDefined(range.from.value)
      && (Eval(range.from.value).Ok? ==> RemainderDefined(range.to.value))
    ensures r.Ok? ==> r.value.0 < r.value.1
  {
    if range.from.None? || range.to.None? then Err(RangeNotClosed)
    else
      match Eval(range.from.value)
      case Err(k) => Err(BadBound(Start, k))
      case Ok(from) =>
        match Eval(range.to.value)
        case Err(k) => Err(BadBound(End, k))
        case Ok(end) =>
          var to := if range.limits == HalfOpen then end - 1 else end;
          if from >= to then Err(StartNotBeforeEnd) else Ok((from, to))
  }

  /** The checks on an explicit representation, in the source's order. The pointer-sized
      types have no known minimum or maximum, so only the sign check applies to them. */
  function CheckExplicit(r: Repr, from: int, to: int): (res: Result<Repr, DeclError>)
    ensures res.Ok? <==> (r.signed || from >= 0) && HoldsRange(r, from, to)
    ensures res.Ok? ==> res.value == r
  {
    if !r.signed && from < 0 then Err(UnsignedNegative)
    else if Minimum(r).Some? && from < Minimum(r).value then Err(BelowMinimum)
    else if Maximum(r).Some? && to > Maximum(r).value then Err(AboveMaximum)
    else Ok(r)
  }

  /** The representation: the explicit one if it passes its checks, else the automatic
      choice. A fixed-width result has `[from, to]` inside its native range; a
      pointer-sized one (`isize`, `usize`) is only ever the explicit one, and is checked
      for sign alone, since its native range depends on the target. */
  function ChooseRepr(explicit: Option<Repr>, from: int, to: int): (res: Result<Repr, DeclError>)
    ensures res.Ok? ==> HoldsRange(res.value, from, to) && (res.value.signed || from >= 0)
    ensures res.Ok? && res.value.size.Fixed? ==>
      Minimum(res.value).value <= from && to <= Maximum(res.value).value
    ensures res.Ok? && res.value.size.Pointer? ==> explicit == Some(res.value)
    ensures explicit.Some? ==>
      (res.Ok? <==> (explicit.value.signed || from >= 0) && HoldsRange(explicit.value, from, to))
    ensures explicit.Some? && res.Ok? ==> res.value == explicit.value
    ensures explicit.None? ==> (res.Ok? <==> SmallestRepr(from, to).Some?)
    ensures explicit.None? && res.Ok? ==> res.value == SmallestRepr(from, to).value
  {
    match explicit
    case Some(r) => CheckExplicit(r, from, to)
    case None =>
      match SmallestRepr(from, to)
      case None => Err(TooWide)
      case Some(r) =>
        SmallestReprSound(from, to);
        Ok(r)
  }

  /** `BoundedInteger::parse`, from the `repr` attribute onwards. A fixed-width repr
      holds the resolved range; a pointer-sized one only comes from the attribute and
      is checked for sign alone. */
  function Parse(d: Declaration): (res: Result<Item, DeclError>)
    requires EvaluationDefined(d)
    ensures res.Ok? ==> res.value.from < res.value.to
    ensures res.Ok? ==> HoldsRange(res.value.repr, res.value.from, res.value.to)
    ensures res.Ok? && res.value.repr.size.Fixed? ==>
      Minimum(res.value.repr).value <= res.value.from && res.value.to <= Maximum(res.value.repr).value
    ensures res.Ok? && res.value.repr.size.Pointer? ==>
      d.repr.Some? && ExplicitRepr(d) == Ok(Some(res.value.repr))
    ensures res.Ok? ==> (res.value.repr.signed || res.value.from >= 0)
    ensures res.Ok? ==> res.value.kind == d.kind && res.value.name == d.name
    ensures res.Ok? ==> ExplicitRepr(d).Ok? && ResolveRange(d.range) == Ok((res.value.from, res.value.to))
    ensures ExplicitRepr(d).Err? ==> res == Err(BadRepr(ExplicitRepr(d).error))
    ensures ExplicitRepr(d).Ok? && ResolveRange(d.range).Err? ==> res == Err(ResolveRange(d.range).error)
  {
    match ExplicitRepr(d)
    case Err(e) => Err(BadRepr(e))
    case Ok(explicit) =>
      match ResolveRange(d.range)
      case Err(e) => Err(e)
      case Ok((from, to)) =>
        match ChooseRepr(explicit, from, to)
        case Err(e) => Err(e)
        case Ok(r) => Ok(Item(r, d.kind, d.name, from, to))
  }

  // ---------------------------------------------------------------------------
  // Properties of the range resolution
  // ---------------------------------------------------------------------------

  /** A range with a missing end is refused, whatever else it says. */
  lemma OpenRangeRefused(d: Declaration)
    requires EvaluationDefined(d)
    requires ExplicitRepr(d).Ok?
    requires d.range.from.None? || d.range.to.None?
    ensures Parse(d) == Err(RangeNotClosed)
  {
  }

  /** Range resolution in full, for ends that evaluate to `a` and `b`: `a..=b` resolves
      to `(a, b)` and `a..b` to `(a, b - 1)`, and either is refused unless the start is
      strictly before the resolved end. */
  lemma ResolveRangeExact(range: RangeSyntax, a: int, b: int)
    requires range.from.Some? && range.to.Some?
    requires RemainderDefined(range.from.value) && RemainderDefined(range.to.value)
    requires Eval(range.from.value) == Ok(a) && Eval(range.to.value) == Ok(b)
    ensures range.limits == Closed ==>
      ResolveRange(range) == if a < b then Ok((a, b)) else Err(StartNotBeforeEnd)
    ensures range.limits == HalfOpen ==>
      ResolveRange(range) == if a < b - 1 then Ok((a, b - 1)) else Err(StartNotBeforeEnd)
  {
  }

  /** Evaluation errors are reported against the bound they occur in, the start first. */
  lemma BoundErrorsReported(range: RangeSyntax)
    requires range.from.Some? && range.to.Some?
    requires RemainderDefined(range.from.value)
    requires Eval(range.from.value).Ok? ==> RemainderDefined(range.to.value)
    ensures Eval(range.from.value).Err? ==>
      ResolveRange(range) == Err(BadBound(Start, Eval(range.from.value).error))
    ensures Eval(range.from.value).Ok? && Eval(range.to.value).Err? ==>
      ResolveRange(range) == Err(BadBound(End, Eval(range.to.value).error))
  {
  }

  // ---------------------------------------------------------------------------
  // Properties of the representation choice
  // ---------------------------------------------------------------------------

  /** An explicit representation is refused for exactly one reason, checked in this order:
      unsigned with a negative start, start below its minimum, end above its maximum. */
  lemma ExplicitReprErrors(r: Repr, from: int, to: int)
    ensures CheckExplicit(r, from, to) == Err(UnsignedNegative) <==> !r.signed && from < 0
    ensures CheckExplicit(r, from, to) == Err(BelowMinimum) <==>
      (r.signed || from >= 0) && Minimum(r).Some? && from < Minimum(r).value
    ensures CheckExplicit(r, from, to) == Err(AboveMaximum) <==>
      && (r.signed || from >= 0)
      && !(Minimum(r).Some? && from < Minimum(r).value)
      && Maximum(r).Some? && to > Maximum(r).value
  {
  }

  /** A pointer-sized representation is checked for sign only. */
  lemma PointerReprSignOnly(signed: bool, from: int, to: int)
    ensures CheckExplicit(Repr(signed, Pointer), from, to).Ok? <==> signed || from >= 0
  {
  }

  /** Without an explicit representation, the accepted item uses exactly the automatic
      choice, which is fixed-width and signed exactly when the range reaches below zero;
      parsing fails with `TooWide` exactly when that choice fails. */
  lemma AutomaticReprChosen(d: Declaration)
    requires EvaluationDefined(d)
    requires d.repr.None?
    requires ResolveRange(d.range).Ok?
    ensures var (from, to) := ResolveRange(d.range).value;
      && (Parse(d).Ok? <==> SmallestRepr(from, to).Some?)
      && (Parse(d).Ok? ==> Parse(d).value.repr == SmallestRepr(from, to).value)
      && (Parse(d).Err? ==> Parse(d) == Err(TooWide))
      && (Parse(d).Ok? ==> Parse(d).value.repr.size.Fixed?)
      && (Parse(d).Ok? ==> (Parse(d).value.repr.signed <==> from < 0))
  {
  }

  /** With an explicit representation that parses, the accepted item keeps it. */
  lemma ExplicitReprKept(d: Declaration)
    requires EvaluationDefined(d)
    requires d.repr.Some? && ParseRepr(d.repr.value).Ok?
    requires Parse(d).Ok?
    ensures Parse(d).value.repr == ParseRepr(d.repr.value).value
    ensures Name(Parse(d).value.repr) == d.repr.value
  {
    ParseNameRoundTrip(d.repr.value);
  }

  /** A declaration whose explicit representation passes its checks is accepted, with
      that representation and the resolved range. */
  lemma ExplicitReprAccepted(d: Declaration, r: Repr, from: int, to: int)
    requires EvaluationDefined(d)
    requires d.repr.Some? && ParseRepr(d.repr.value) == Ok(r)
    requires ResolveRange(d.range) == Ok((from, to))
    requires r.signed || from >= 0
    requires HoldsRange(r, from, to)
    ensures Parse(d) == Ok(Item(r, d.kind, d.name, from, to))
  {
  }

  /** Which error a refused declaration gets: a bad `repr` attribute first, then the
      range's own error (open range, a bound's evaluation error at that bound, start not
      before end), then the explicit representation's check, or `TooWide` when there is
      none and the automatic choice fails. */
  lemma ParseErrors(d: Declaration)
    requires EvaluationDefined(d)
    ensures ExplicitRepr(d).Err? ==> Parse(d) == Err(BadRepr(ExplicitRepr(d).error))
    ensures ExplicitRepr(d).Ok? && ResolveRange(d.range).Err? ==>
      Parse(d) == Err(ResolveRange(d.range).error)
    ensures ExplicitRepr(d).Ok? && ExplicitRepr(d).value.Some? && ResolveRange(d.range).Ok? ==>
      var (from, to) := ResolveRange(d.range).value;
      CheckExplicit(ExplicitRepr(d).value.value, from, to).Err? ==>
        Parse(d) == Err(CheckExplicit(ExplicitRepr(d).value.value, from, to).error)
    ensures ExplicitRepr(d).Ok? && ExplicitRepr(d).value.None? && ResolveRange(d.range).Ok? ==>
      var (from, to) := ResolveRange(d.range).value;
      SmallestRepr(from, to).None? ==> Parse(d) == Err(TooWide)
  {
  }

  // ---------------------------------------------------------------------------
  // From the declaration to the runtime type
  // ---------------------------------------------------------------------------

  /** The bounds of the type generated for an item. */
  function TypeBounds(item: Item): Runtime.Bounds {
    Runtime.Bounds(item.from, item.to)
  }

  /** No silent narrowing into a fixed-width representation: the generated type is
      non-empty, and with a fixed-width repr every legal instance fits its native range.
      An `isize`/`usize` repr is only ever written explicitly, and only its sign is
      checked, so its instances are merely of the right sign. */
  lemma AcceptedTypeFitsRepr(d: Declaration, x: Runtime.Value)
    requires EvaluationDefined(d)
    requires Parse(d).Ok?
    ensures TypeBounds(Parse(d).value).Valid()
    ensures Runtime.Within(TypeBounds(Parse(d).value), x) && Parse(d).value.repr.size.Fixed? ==>
      Minimum(Parse(d).value.repr).value <= x.repr <= Maximum(Parse(d).value.repr).value
    ensures Parse(d).value.repr.size.Pointer? ==> d.repr.Some?
    ensures Runtime.Within(TypeBounds(Parse(d).value), x) ==>
      HoldsRange(Parse(d).value.repr, x.repr, x.repr)
    ensures Runtime.Within(TypeBounds(Parse(d).value), x) && !Parse(d).value.repr.signed ==>
      x.repr >= 0
  {
  }

  // ---------------------------------------------------------------------------
  // Worked examples from the crate's documentation
  // ---------------------------------------------------------------------------

  function Int(n: nat): Expr {
    LitExpr(IntLit(n))
  }

  /** `struct S { -3..2 }` resolves to `-3..=1` stored in `i8`. */
  lemma ExampleSignedStruct()
    ensures Parse(Declaration(None, Struct, "S", RangeSyntax(Some(Unary(Neg, Int(3))), HalfOpen, Some(Int(2)))))
      == Ok(Item(Repr(true, Fixed(Fixed8)), Struct, "S", -3, 1))
  {
    assert BigInt.MagnitudeBits(-3) == 2;
    assert BigInt.MagnitudeBits(1) == 1;
  }

  /** `enum S { 5..=7 }` is stored in `u8`. */
  lemma ExampleUnsignedEnum()
    ensures Parse(Declaration(None, Enum, "S", RangeSyntax(Some(Int(5)), Closed, Some(Int(7)))))
      == Ok(Item(Repr(false, Fixed(Fixed8)), Enum, "S", 5, 7))
  {
    assert BigInt.MagnitudeBits(7) == 3;
  }

  /** `#[repr(u16)] struct S { 2..5 }` keeps `u16` and resolves to `2..=4`. */
  lemma ExampleExplicitRepr()
    ensures Parse(Declaration(Some("u16"), Struct, "S", RangeSyntax(Some(Int(2)), HalfOpen, Some(Int(5)))))
      == Ok(Item(Repr(false, Fixed(Fixed16)), Struct, "S", 2, 4))
  {
    NameParseRoundTrip(Repr(false, Fixed(Fixed16)));
  }

  /** `#[repr(u8)]` with a negative start is refused. */
  lemma ExampleUnsignedNegative()
    ensures Parse(Declaration(Some("u8"), Struct, "S", RangeSyntax(Some(Unary(Neg, Int(1))), Closed, Some(Int(4)))))
      == Err(UnsignedNegative)
  {
    NameParseRoundTrip(Repr(false, Fixed(Fixed8)));
  }

  /** `#[repr(usize)]` accepts a range no 64-bit target can hold: the pointer-sized
      types have no known bounds, so only the sign is checked. */
  lemma ExamplePointerReprUnbounded()
    ensures Parse(Declaration(Some("usize"), Struct, "S",
                              RangeSyntax(Some(Int(0)), Closed, Some(Int(1000000000000000000000000000000000000000000))))).Ok?
    ensures Parse(Declaration(Some("usize"), Struct, "S",
                              RangeSyntax(Some(Int(0)), Closed, Some(Int(1000000000000000000000000000000000000000000))))).value.repr
      == Repr(false, Pointer)
  {
    NameParseRoundTrip(Repr(false, Pointer));
  }

  /** A single-value range such as `3..=3` is refused: the start must be strictly before
      the end. */
  lemma ExampleSingletonRefused()
    ensures Parse(Declaration(None, Struct, "S", RangeSyntax(Some(Int(3)), Closed, Some(Int(3)))))
      == Err(StartNotBeforeEnd)
  {
  }
}

=== FILE: repr.dfy ===
/**
 The primitive integer types a bounded integer can be stored in (`Repr`, `ReprSize`,
 `ReprSizeFixed` in macro/src/lib.rs): their native ranges, the parser for a `repr`
 name such as `u16` or `isize`, and the automatic choice of a representation for a range.
 */
module Repr {
  import opened RustCore
  import opened BigInt

  /** The fixed widths, in the order Rust's derived `Ord` compares them. */
  datatype ReprSizeFixed = Fixed8 | Fixed16 | Fixed32 | Fixed64 | Fixed128 {

    function Bits(): nat {
      match this
      case Fixed8 => 8
      case Fixed16 => 16
      case Fixed32 => 32
      case Fixed64 => 64
      case Fixed128 => 128
    }
  }

  /** A width: fixed, or `size` for the platform's pointer width. */
  datatype ReprSize = Fixed(fixed: ReprSizeFixed) | Pointer

  /** A primitive integer type. The source also stores its identifier, which is always
      `Name()` of the other two fields (see `ParseNameRoundTrip`). */
  datatype Repr = Repr(signed: bool, size: ReprSize)

  /** `cmp::max` under the derived ordering, which follows the declaration order and
      therefore the bit widths. */
  function MaxFixed(a: ReprSizeFixed, b: ReprSizeFixed): (r: ReprSizeFixed)
    ensures r == a || r == b
    ensures r.Bits() >= a.Bits() && r.Bits() >= b.Bits()
  {
    if a.Bits() <= b.Bits() then b else a
  }

  /** `ReprSizeFixed::from_bits`: the narrowest fixed width with at least `bits` bits. */
  function FromBits(bits: nat): (r: Option<ReprSizeFixed>)
    ensures r.Some? <==> bits <= 128
    ensures r.Some? ==> bits <= r.value.Bits()
    ensures r.Some? ==> forall f: ReprSizeFixed :: bits <= f.Bits() ==> r.value.Bits() <= f.Bits()
  {
    if bits <= 8 then Some(Fixed8)
    else if bits <= 16 then Some(Fixed16)
    else if bits <= 32 then Some(Fixed32)
    else if bits <= 64 then Some(Fixed64)
    else if bits <= 128 then Some(Fixed128)
    else None
  }

  /** `from_bits` is monotone: needing more bits never selects a narrower width. */
  lemma FromBitsMonotone(b1: nat, b2: nat)
    requires b1 <= b2
    ensures FromBits(b2).Some? ==> FromBits(b1).Some?
    ensures FromBits(b2).Some? ==> FromBits(b1).value.Bits() <= FromBits(b2).value.Bits()
  {
  }

  /** The five bands of `from_bits`, as written in the source's match. */
  lemma FromBitsBands(bits: nat)
    ensures bits <= 8 ==> FromBits(bits) == Some(Fixed8)
    ensures 9 <= bits <= 16 ==> FromBits(bits) == Some(Fixed16)
    ensures 17 <= bits <= 32 ==> FromBits(bits) == Some(Fixed32)
    ensures 33 <= bits <= 64 ==> FromBits(bits) == Some(Fixed64)
    ensures 65 <= bits <= 128 ==> FromBits(bits) == Some(Fixed128)
    ensures 128 < bits ==> FromBits(bits) == None
  {
    // each band's width is the only one at least `bits` wide whose predecessor is not
    var r := FromBits(bits);
    if bits <= 128 {
      assert bits <= r.value.Bits();
      assert forall f: ReprSizeFixed :: bits <= f.Bits() ==> r.value.Bits() <= f.Bits();
    }
  }

  // ---------------------------------------------------------------------------
  // Native ranges (`Repr::minimum`, `Repr::maximum`)
  // ---------------------------------------------------------------------------

  /** `2^(a + b) == 2^a * 2^b`. */
  lemma {:induction false} Pow2Add(a: nat, b: nat)
    ensures Pow2(a + b) == Pow2(a) * Pow2(b)
    decreases a
  {
    if a > 0 {
      Pow2Add(a - 1, b);
      calc {
        Pow2(a + b);
        2 * Pow2(a - 1 + b);
        2 * (Pow2(a - 1) * Pow2(b));
        (2 * Pow2(a - 1)) * Pow2(b);
      }
    }
  }

  /** The powers of two at the five widths, reached by doubling the exponent. */
  lemma Pow2Widths()
    ensures Pow2(8) == 256 && Pow2(16) == 65536 && Pow2(32) == 4294967296
    ensures Pow2(64) == 18446744073709551616
    ensures Pow2(128) == 340282366920938463463374607431768211456
  {
    assert Pow2(2) == 4;
    Pow2Add(2, 2);
    assert Pow2(4) == 16;
    Pow2Add(4, 4);
    assert Pow2(8) == 256;
    Pow2Add(8, 8);
    assert Pow2(16) == 65536;
    Pow2Add(16, 16);
    assert Pow2(32) == 4294967296;
    Pow2Add(32, 32);
    assert Pow2(64) == 18446744073709551616;
    Pow2Add(64, 64);
  }

  /** The powers of two the `MIN`/`MAX` table is made of. */
  lemma Pow2Table()
    ensures Pow2(7) == 128 && Pow2(8) == 256
    ensures Pow2(15) == 32768 && Pow2(16) == 65536
    ensures Pow2(31) == 2147483648 && Pow2(32) == 4294967296
    ensures Pow2(63) == 9223372036854775808 && Pow2(64) == 18446744073709551616
    ensures Pow2(127) == 170141183460469231731687303715884105728
    ensures Pow2(128) == 340282366920938463463374607431768211456
  {
    Pow2Widths();
    assert Pow2(8) == 2 * Pow2(7);
    assert Pow2(16) == 2 * Pow2(15);
    assert Pow2(32) == 2 * Pow2(31);
    assert Pow2(64) == 2 * Pow2(63);
    assert Pow2(128) == 2 * Pow2(127);
  }

  /** The type's `MIN`; `None` for the pointer-sized types, whose width is not fixed.
      For a fixed width `n` it is `0` unsigned and `-2^(n-1)` signed. */
  function Minimum(r: Repr): (m: Option<int>)
    ensures m.Some? <==> r.size.Fixed?
    ensures m.Some? && !r.signed ==> m.value == 0
    ensures m.Some? && r.signed ==> m.value == -(Pow2(r.size.fixed.Bits() - 1) as int)
  {
    Pow2Table();
    match (r.signed, r.size)
    case (false, Fixed(_)) => Some(0)
    case (true, Fixed(Fixed8)) => Some(-128)
    case (true, Fixed(Fixed16)) => Some(-32768)
    case (true, Fixed(Fixed32)) => Some(-2147483648)
    case (true, Fixed(Fixed64)) => Some(-9223372036854775808)
    case (true, Fixed(Fixed128)) => Some(-170141183460469231731687303715884105728)
    case (_, Pointer) => None
  }

  /** The type's `MAX`; `None` for the pointer-sized types. For a fixed width `n` it is
      `2^n - 1` unsigned and `2^(n-1) - 1` signed. */
  function Maximum(r: Repr): (m: Option<int>)
    ensures m.Some? <==> r.size.Fixed?
    ensures m.Some? && !r.signed ==> m.value == Pow2(r.size.fixed.Bits()) - 1
    ensures m.Some? && r.signed ==> m.value == Pow2(r.size.fixed.Bits() - 1) - 1
  {
    Pow2Table();
    match (r.signed, r.size)
    case (false, Fixed(Fixed8)) => Some(255)
    case (false, Fixed(Fixed16)) => Some(65535)
    case (false, Fixed(Fixed32)) => Some(4294967295)
    case (false, Fixed(Fixed64)) => Some(18446744073709551615)
    case (false, Fixed(Fixed128)) => Some(340282366920938463463374607431768211455)
    case (true, Fixed(Fixed8)) => Some(127)
    case (true, Fixed(Fixed16)) => Some(32767)
    case (true, Fixed(Fixed32)) => Some(2147483647)
    case (true, Fixed(Fixed64)) => Some(9223372036854775807)
    case (true, Fixed(Fixed128)) => Some(170141183460469231731687303715884105727)
    case (_, Pointer) => None
  }

  /** Whether `[lo, hi]` lies within the native range of `r`, as far as it is known:
      a missing minimum or maximum imposes nothing. */
  predicate HoldsRange(r: Repr, lo: int, hi: int) {
    && (Minimum(r).Some? ==> Minimum(r).value <= lo)
    && (Maximum(r).Some? ==> hi <= Maximum(r).value)
  }

  /** The native range of every fixed-width type is the two's-complement range of its
      width: `[0, 2^n - 1]` unsigned and `[-2^(n-1), 2^(n-1) - 1]` signed. The
      pointer-sized types have neither bound. */
  lemma NativeRange(r: Repr)
    ensures r.size.Pointer? <==> Minimum(r).None?
    ensures r.size.Pointer? <==> Maximum(r).None?
    ensures r.size.Fixed? && !r.signed ==>
      && Minimum(r).Some? && Minimum(r).value == 0
      && Maximum(r).Some? && Maximum(r).value == Pow2(r.size.fixed.Bits()) - 1
    ensures r.size.Fixed? && r.signed ==>
      && Minimum(r).Some? && Minimum(r).value == -(Pow2(r.size.fixed.Bits() - 1) as int)
      && Maximum(r).Some? && Maximum(r).value == Pow2(r.size.fixed.Bits() - 1) - 1
  {
  }

  // ---------------------------------------------------------------------------
  // Automatic choice (`Repr::smallest_repr`)
  // ---------------------------------------------------------------------------

  /** The bit count `smallest_repr` asks `from_bits` for: the magnitude's bit length for
      an unsigned type, and one more (a sign bit) for each bound of a signed type. */
  function NeededBits(min: int, max: int): nat {
    if min < 0 then
      var a, b := MagnitudeBits(min) + 1, MagnitudeBits(max) + 1;
      if a <= b then b else a
    else MagnitudeBits(max)
  }

  /** `Repr::smallest_repr`: signed exactly when `min` is negative, never pointer-sized. */
  function SmallestRepr(min: int, max: int): (r: Option<Repr>)
    ensures r.Some? ==> (r.value.signed <==> min < 0)
    ensures r.Some? ==> r.value.size.Fixed?
  {
    if min < 0 then
      match FromBits(MagnitudeBits(min) + 1)
      case None => None
      case Some(a) =>
        match FromBits(MagnitudeBits(max) + 1)
        case None => None
        case Some(b) => Some(Repr(true, Fixed(MaxFixed(a, b))))
    else
      match FromBits(MagnitudeBits(max))
      case None => None
      case Some(w) => Some(Repr(false, Fixed(w)))
  }

  /** Selection fails exactly when the bits it needs exceed the widest type, and when it
      succeeds the width is the one `from_bits` gives for those bits. */
  lemma SmallestReprWidth(min: int, max: int)
    ensures SmallestRepr(min, max).None? <==> NeededBits(min, max) > 128
    ensures SmallestRepr(min, max).Some? ==>
      SmallestRepr(min, max).value.size == Fixed(FromBits(NeededBits(min, max)).value)
  {
    if min < 0 {
      var a, b := MagnitudeBits(min) + 1, MagnitudeBits(max) + 1;
      FromBitsMonotone(a, NeededBits(min, max));
      FromBitsMonotone(b, NeededBits(min, max));
    }
  }

  /** `n` fits in `w` bits exactly when it is below `2^w`, for a magnitude. */
  lemma MagnitudeFits(x: int, w: nat)
    ensures MagnitudeBits(x) <= w <==> Abs(x) < Pow2(w)
  {
    BitLenBound(Abs(x), w);
  }

  /** Soundness: the chosen type can hold both bounds. */
  lemma SmallestReprSound(min: int, max: int)
    requires SmallestRepr(min, max).Some?
    ensures HoldsRange(SmallestRepr(min, max).value, min, max)
    ensures Minimum(SmallestRepr(min, max).value).Some?
    ensures Maximum(SmallestRepr(min, max).value).Some?
  {
    var r := SmallestRepr(min, max).value;
    var w := r.size.fixed.Bits();
    NativeRange(r);
    SmallestReprWidth(min, max);
    if min < 0 {
      MagnitudeFits(min, w - 1);
      MagnitudeFits(max, w - 1);
    } else {
      MagnitudeFits(max, w);
    }
  }

  /** Near-minimality: every fixed-width type that holds `[min, max]` is at least as wide
      as the chosen one, unless `min` sits exactly on that type's (negative) minimum. */
  lemma SmallestReprNarrowest(min: int, max: int, c: Repr)
    requires min <= max
    requires c.size.Fixed? && HoldsRange(c, min, max)
    requires min < 0 ==> Minimum(c).value < min
    ensures SmallestRepr(min, max).Some?
    ensures SmallestRepr(min, max).value.size.fixed.Bits() <= c.size.fixed.Bits()
  {
    var w := c.size.fixed.Bits();
    NativeRange(c);
    SmallestReprWidth(min, max);
    if min < 0 {
      assert c.signed;
      MagnitudeFits(min, w - 1);
      MagnitudeFits(max, w - 1);
      assert NeededBits(min, max) <= w;
    } else {
      MagnitudeFits(max, w);
      if c.signed {
        MagnitudeFits(max, w - 1);
      }
      assert NeededBits(min, max) <= w;
    }
  }

  /** The exception `SmallestReprNarrowest` allows for is real: `-128..=0` fits `i8` but
      `smallest_repr` gives `i16`, because `-128` has a magnitude of 8 bits and a sign bit
      is added to that. */
  lemma NegativePowerOfTwoWidens()
    ensures HoldsRange(Repr(true, Fixed(Fixed8)), -128, 0)
    ensures SmallestRepr(-128, 0) == Some(Repr(true, Fixed(Fixed16)))
  {
    assert MagnitudeBits(-128) == 8;
  }

  // ---------------------------------------------------------------------------
  // Names (`Repr::new`, `impl Parse for Repr`)
  // ---------------------------------------------------------------------------

  /** Why a `repr` name was refused. */
  datatype ReprError =
    | NotIntegerType            // neither an `i` nor a `u` prefix
    | UnknownSize(size: string) // a prefix, then something other than a known width

  function SizeName(size: ReprSize): string {
    match size
    case Fixed(Fixed8) => "8"
    case Fixed(Fixed16) => "16"
    case Fixed(Fixed32) => "32"
    case Fixed(Fixed64) => "64"
    case Fixed(Fixed128) => "128"
    case Pointer => "size"
  }

  /** The identifier `Repr::new` builds: `i` or `u`, then the width. */
  function Name(r: Repr): string {
    (if r.signed then "i" else "u") + SizeName(r.size)
  }

  function ParseSize(s: string): Option<ReprSize> {
    if s == "8" then Some(Fixed(Fixed8))
    else if s == "16" then Some(Fixed(Fixed16))
    else if s == "32" then Some(Fixed(Fixed32))
    else if s == "64" then Some(Fixed(Fixed64))
    else if s == "128" then Some(Fixed(Fixed128))
    else if s == "size" then Some(Pointer)
    else None
  }

  /** `impl Parse for Repr`, on the identifier's text. What it accepts is exactly the
      name of the type it returns; a refused identifier without an `i`/`u` prefix is not
      an integer type, and one with a prefix has an unknown size after it. */
  function ParseRepr(s: string): (res: Result<Repr, ReprError>)
    ensures res.Ok? ==> Name(res.value) == s
    ensures res == Err(NotIntegerType) <==> |s| == 0 || (s[0] != 'i' && s[0] != 'u')
    ensures res.Err? && res.error.UnknownSize? ==> res.error.size == s[1..]
  {
    if |s| == 0 || (s[0] != 'i' && s[0] != 'u') then Err(NotIntegerType)
    else
      var signed := s[0] == 'i';
      match ParseSize(s[1..])
      case None => Err(UnknownSize(s[1..]))
      case Some(size) =>
        assert SizeName(size) == s[1..];
        assert s == s[..1] + s[1..];
        Ok(Repr(signed, size))
  }

  /** Every type's name parses back to that type. */
  lemma NameParseRoundTrip(r: Repr)
    ensures ParseRepr(Name(r)) == Ok(r)
  {
    var s := Name(r);
    assert s[1..] == SizeName(r.size);
  }

  /** A name that parses is the name of the type it parses to, so the twelve names
      `i8`..`i128`, `isize`, `u8`..`u128`, `usize` are the only ones accepted. */
  lemma ParseNameRoundTrip(s: string)
    requires ParseRepr(s).Ok?
    ensures Name(ParseRepr(s).value) == s
  {
    var r := ParseRepr(s).value;
    assert SizeName(r.size) == s[1..];
    assert s == s[..1] + s[1..];
  }
}

=== FILE: runtime.dfy ===
/**
 The runtime contract every bounded integer type satisfies (trait `BoundedInteger` in
 src/lib.rs, with the bodies `bounded_integer_impl!` and
 `bounded_integer_partial_ord_impl!` supply). A type is identified by its bounds; its
 representation arithmetic is done over unbounded integers.
 */
module Runtime {
  import opened RustCore

  /** A bounded integer type: its `min_value()` and `max_value()` as representations. */
  datatype Bounds = Bounds(min: int, max: int) {
    predicate Valid() {
      min <= max
    }
  }

  /** An instance of a bounded type: the representation it was built from. */
  datatype Value = Value(repr: int)

  /** The type invariant: `x` is a legal instance of `t`. */
  predicate Within(t: Bounds, x: Value) {
    t.min <= x.repr <= t.max
  }

  /** `from_repr`: succeeds exactly on representations inside the bounds. */
  function FromRepr(t: Bounds, repr: int): (r: Option<Value>)
    ensures r.Some? <==> t.min <= repr <= t.max
    ensures r.Some? ==> Within(t, r.value) && r.value.repr == repr
  {
    if repr >= t.min && repr <= t.max then Some(Value(repr)) else None
  }

  /** `to_repr`: the representation, which determines the instance. */
  function ToRepr(x: Value): (r: int)
    ensures Value(r) == x
  {
    x.repr
  }

  /** `min_value()`: a legal instance of every non-empty type, below every legal
      instance. */
  function MinValue(t: Bounds): (m: Value)
    ensures Within(t, m) <==> t.Valid()
    ensures forall x :: Within(t, x) ==> ToRepr(m) <= ToRepr(x)
  {
    Value(t.min)
  }

  /** `max_value()`: a legal instance of every non-empty type, above every legal
      instance. */
  function MaxValue(t: Bounds): (m: Value)
    ensures Within(t, m) <==> t.Valid()
    ensures forall x :: Within(t, x) ==> ToRepr(x) <= ToRepr(m)
  {
    Value(t.max)
  }

  /** Converting to the representation and back is the identity on legal instances,
      and converting a representation in and out gives it back. */
  lemma ReprRoundTrip(t: Bounds, x: Value, repr: int)
    ensures Within(t, x) ==> FromRepr(t, ToRepr(x)) == Some(x)
    ensures FromRepr(t, repr).Some? ==> ToRepr(FromRepr(t, repr).value) == repr
  {
  }

  /** `min_value()` and `max_value()` are legal instances and bracket every legal
      instance. */
  lemma MinMaxBracket(t: Bounds, x: Value)
    requires t.Valid()
    ensures Within(t, MinValue(t)) && Within(t, MaxValue(t))
    ensures Within(t, x) ==> ToRepr(MinValue(t)) <= ToRepr(x) <= ToRepr(MaxValue(t))
  {
  }

  // ---------------------------------------------------------------------------
  // Checked arithmetic
  // ---------------------------------------------------------------------------

  /** `checked_add_repr`: the sum, if it is a legal instance. */
  function CheckedAddRepr(t: Bounds, a: Value, other: int): (r: Option<Value>)
    ensures r.Some? <==> t.min <= ToRepr(a) + other <= t.max
    ensures r.Some? ==> ToRepr(r.value) == ToRepr(a) + other
  {
    FromRepr(t, ToRepr(a) + other)
  }

  /** `checked_add`. */
  function CheckedAdd(t: Bounds, a: Value, b: Value): (r: Option<Value>)
    ensures r.Some? <==> t.min <= ToRepr(a) + ToRepr(b) <= t.max
    ensures r.Some? ==> ToRepr(r.value) == ToRepr(a) + ToRepr(b)
  {
    CheckedAddRepr(t, a, ToRepr(b))
  }

  /** `checked_sub_repr`: the difference, if it is a legal instance. */
  function CheckedSubRepr(t: Bounds, a: Value, other: int): (r: Option<Value>)
    ensures r.Some? <==> t.min <= ToRepr(a) - other <= t.max
    ensures r.Some? ==> ToRepr(r.value) == ToRepr(a) - other
  {
    FromRepr(t, ToRepr(a) - other)
  }

  /** `checked_sub`. */
  function CheckedSub(t: Bounds, a: Value, b: Value): (r: Option<Value>)
    ensures r.Some? <==> t.min <= ToRepr(a) - ToRepr(b) <= t.max
    ensures r.Some? ==> ToRepr(r.value) == ToRepr(a) - ToRepr(b)
  {
    CheckedSubRepr(t, a, ToRepr(b))
  }

  // ---------------------------------------------------------------------------
  // Saturating arithmetic
  // ---------------------------------------------------------------------------

  /** `saturating_add_repr`: the checked sum, or else the bound on the side the other
      operand's sign points to. It never produces an illegal instance. */
  function SaturatingAddRepr(t: Bounds, a: Value, other: int): (r: Value)
    ensures t.Valid() ==> Within(t, r)
  {
    if other < 0 then CheckedAddRepr(t, a, other).UnwrapOr(MinValue(t))
    else CheckedAddRepr(t, a, other).UnwrapOr(MaxValue(t))
  }

  /** `saturating_add`. */
  function SaturatingAdd(t: Bounds, a: Value, b: Value): (r: Value)
    ensures t.Valid() ==> Within(t, r)
  {
    SaturatingAddRepr(t, a, ToRepr(b))
  }

  /** `saturating_sub_repr`: the checked difference, or else the bound on the side
      opposite to the other operand's sign. It never produces an illegal instance. */
  function SaturatingSubRepr(t: Bounds, a: Value, other: int): (r: Value)
    ensures t.Valid() ==> Within(t, r)
  {
    if other < 0 then CheckedSubRepr(t, a, other).UnwrapOr(MaxValue(t))
    else CheckedSubRepr(t, a, other).UnwrapOr(MinValue(t))
  }

  /** `saturating_sub`. */
  function SaturatingSub(t: Bounds, a: Value, b: Value): (r: Value)
    ensures t.Valid() ==> Within(t, r)
  {
    SaturatingSubRepr(t, a, ToRepr(b))
  }

  /** The nearest point of `[t.min, t.max]` to `x`. */
  function Clamp(t: Bounds, x: int): int {
    if x < t.min then t.min else if x > t.max then t.max else x
  }

  /** On a legal instance the sign-directed rule is exact clamping: a sum can only leave
      the range on the side the other operand's sign points to. */
  lemma SaturatingAddClamps(t: Bounds, a: Value, other: int)
    requires Within(t, a)
    ensures ToRepr(SaturatingAddRepr(t, a, other)) == Clamp(t, ToRepr(a) + other)
  {
  }

  /** Likewise for differences. */
  lemma SaturatingSubClamps(t: Bounds, a: Value, other: int)
    requires Within(t, a)
    ensures ToRepr(SaturatingSubRepr(t, a, other)) == Clamp(t, ToRepr(a) - other)
  {
  }

  /** Saturating and checked operations agree whenever the checked one succeeds; when
      it fails, the bound is chosen by the sign of the other operand alone. */
  lemma SaturatingAgreesWithChecked(t: Bounds, a: Value, b: Value)
    ensures CheckedAdd(t, a, b).Some? ==> SaturatingAdd(t, a, b) == CheckedAdd(t, a, b).value
    ensures CheckedSub(t, a, b).Some? ==> SaturatingSub(t, a, b) == CheckedSub(t, a, b).value
    ensures CheckedAdd(t, a, b).None? ==>
      SaturatingAdd(t, a, b) == if ToRepr(b) < 0 then MinValue(t) else MaxValue(t)
    ensures CheckedSub(t, a, b).None? ==>
      SaturatingSub(t, a, b) == if ToRepr(b) < 0 then MaxValue(t) else MinValue(t)
  {
  }

  // ---------------------------------------------------------------------------
  // Ordering
  // ---------------------------------------------------------------------------

  datatype Ordering = Less | Equal | Greater {
    function Reverse(): Ordering {
      match this
      case Less => Greater
      case Equal => Equal
      case Greater => Less
    }
  }

  /** `partial_cmp` on the primitive representation. */
  function CompareInt(x: int, y: int): Ordering {
    if x < y then Less else if x == y then Equal else Greater
  }

  /** `partial_cmp`: always defined, and it orders instances as their representations. */
  function PartialCmp(a: Value, b: Value): (r: Option<Ordering>)
    ensures r.Some?
    ensures r == Some(Less) <==> ToRepr(a) < ToRepr(b)
    ensures r == Some(Equal) <==> ToRepr(a) == ToRepr(b)
    ensures r == Some(Greater) <==> ToRepr(a) > ToRepr(b)
  {
    Some(CompareInt(ToRepr(a), ToRepr(b)))
  }

  /** `partial_cmp` is a total order on instances: `Equal` exactly on equal instances,
      antisymmetric, and `Less` is transitive. */
  lemma PartialCmpTotalOrder(a: Value, b: Value, c: Value)
    ensures PartialCmp(a, b) == Some(Equal) <==> a == b
    ensures PartialCmp(b, a) == Some(PartialCmp(a, b).value.Reverse())
    ensures PartialCmp(a, b) == Some(Less) && PartialCmp(b, c) == Some(Less) ==>
      PartialCmp(a, c) == Some(Less)
  {
  }

  /** Position of an instance among the type's variants `min, min + 1, ..., max`. */
  function VariantIndex(t: Bounds, x: Value): int {
    x.repr - t.min
  }

  /** The representation order agrees with the variants' declaration order, which is
      what a derived `PartialOrd` on the enum would compare. */
  lemma PartialCmpFollowsVariantOrder(t: Bounds, a: Value, b: Value)
    requires Within(t, a) && Within(t, b)
    ensures PartialCmp(a, b) == Some(CompareInt(VariantIndex(t, a), VariantIndex(t, b)))
    ensures 0 <= VariantIndex(t, a) < t.max - t.min + 1
  {
  }
}

=== FILE: rust_core.dfy ===
/** The two `core` enums the macro and the runtime contract return: `core::option::Option`
    and `core::result::Result`. */
module RustCore {

  /** `Option<T>`: a value, or its absence. */
  datatype Option<+T> = None | Some(value: T) {

    /** `Option::unwrap_or`: the wrapped value, or `default` when absent. */
    function UnwrapOr(default: T): T {
      match this
      case Some(v) => v
      case None => default
    }
  }

  /** `Result<T, E>`: a success `Ok(value)` or a failure `Err(error)`. */
  datatype Result<+T, +E> = Ok(value: T) | Err(error: E)
}
